=== FILE: README.md ===
# Task list core, modelled in Dafny

This project models the logic of the `TodoApp` class of a single-page to-do list. That class is a
browser script that keeps an ordered list of tasks. Each task has an id, a text, a completion flag,
an optional due date, a priority, a category, a creation time and an optional completion time.
The DOM, storage and date-library calls are stripped away. What is left is a set of pure
transformations of an immutable `seq<Task>`:

- **Store** (`store.dfy`):
  - adding a task from the form;
  - toggling completion;
  - committing an inline edit;
  - deleting by id;
  - the drag-and-drop reorder with its two `splice` calls.
- **Query** (`query.dfy`):
  - the view: a status filter (`all` / `active` / `completed`) plus a case-insensitive substring
    search over text or category, sorted by the comparator;
  - the counters of the stats panel.
- **DueDates** (`due_dates.dfy`): the due-date badge, i.e. overdue, due today, due tomorrow or a
  plain date.
- **CsvExport** (`csv_export.dfy`): the CSV text of the export. It has a small reference reader as
  its partner, so the encoding can be shown to read back.
- **Tasks** (`tasks.dfy`): the task record, the first-match id lookup that `find` and `findIndex`
  perform, and the list invariant that the mutations keep. The invariant is distinct ids, trimmed
  non-empty text and category, and `completedAt` present exactly when `completed`.
- **JsString** and **JsArray**: the ECMAScript primitives the class relies on, namely `trim`,
  ASCII `toLowerCase`, `includes`, `join`, `filter` and `splice`.

Timestamps are integer milliseconds. Three things the script reads from outside become
parameters:
- the clock (`now`);
- the new id (`Date.now()`);
- the locale formatters (`toLocaleString` and `toLocaleDateString`), passed as `int -> string`
  functions.

Refusals are `Failure` values of a `Result`: an empty task text, or exporting an empty list.

Behaviour as written, which the model follows:

- **Reorder landing index.** Reorder reinserts the dragged task at the index the target had
  *before* the removal. A task dragged downward therefore lands after the target, not
  "immediately before" it.
- **Reorder with a missing id.** `findIndex` gives -1 for a missing id, and `splice` reads -1
  as the last index. A missing target puts the dragged task just before the last place. A
  missing dragged id moves the last task to the target's index. The list is unchanged only when
  that place is where the moved task already was. For example, with a missing target the dragged
  task is second to last, and with a missing dragged id the target is the last task.
- **Export order.** The export writes the tasks in store order (`this.tasks`), not in the order
  of the current view.
- **CSV quoting.** A value containing a comma is wrapped in double quotes. Embedded double quotes
  and line breaks are not escaped. A value with a line break never reads back, because it splits
  the line. A value with a double quote reads back when it is left unquoted and does not start
  with a double quote, like `5" nails` (`QuoteInPlainValue`). It can fail only when it is quoted,
  because it also holds a comma (`QuotesNotEscaped` shows one), or when it starts with a double
  quote.
- **Sort comparator.** The comparator is not transitive when dated and undated tasks of equal
  priority mix, so the view is only guaranteed to be ordered pairwise between neighbours
  (`MixedDatesOutOfOrder`). It is fully ordered when every task is dated or none is.
- **"Due today".** The badge shows "Due today" only when the due instant equals now exactly.

## Model

| member | source | states |
|---|---|---|
| `Store.CategoryOf` | script.js:109 | the stored category is the trimmed field, or `General` when the field is blank; it is never empty and has no surrounding white space |
| `Store.NewTask` | script.js:103-111 | the added task has the given id and creation time, the trimmed text, the stored category, the form's due date and priority, is not completed, and satisfies the list invariant |
| `Store.AddTask` | script.js:97-113 | refused with the empty-text rejection, whose message is "Please enter a task!", exactly when the text is blank; otherwise the new task is at index 0, the old list follows it unchanged, and the length grows by one |
| `Store.AddPreservesValidStore` | script.js:103-113 | adding a non-blank task whose id is fresh succeeds and keeps distinct ids and well-formed tasks |
| `Tasks.IndexOfId` | script.js:127 | `find`/`findIndex` by id: -1 exactly when the id is absent, otherwise an index holding the id with no earlier one |
| `Store.ToggleTask` | script.js:126-130 | an unknown id changes nothing; otherwise only the first task with the id changes, its `completed` flips, and `completedAt` is the current time when it becomes completed and absent otherwise |
| `Store.ToggleTwiceRestores` | script.js:126-130 | completing an open task and reopening it restores the list exactly |
| `Store.TogglePreservesValidStore` | script.js:129-130 | toggling keeps the invariant, in particular `completedAt` present exactly when `completed` |
| `Store.EditTask` | script.js:147-150 | blank text or an unknown id changes nothing; otherwise only the first task with the id changes, and only its text, which becomes the trimmed new text |
| `Store.EditPreservesValidStore` | script.js:148-150 | editing keeps the invariant |
| `Store.DeleteTask` | script.js:140 | the survivors are exactly the tasks whose id differs; the id is gone afterwards; deleting an absent id changes nothing |
| `Store.DeleteConcat` | script.js:140 | deleting from a concatenation deletes from each part, so the survivors keep their order |
| `Store.DeleteUnique` | script.js:140 | with distinct ids, deleting the id at index `i` removes exactly that index |
| `Store.DeletePreservesValidStore` | script.js:140 | deleting keeps the invariant |
| `JsArray.Filter` | script.js:140 | `filter`: the elements that pass the test, in their order; never longer than the input |
| `JsArray.FilterMembers` | script.js:169 | an element survives `filter` exactly when it is in the input and passes the test |
| `JsArray.FilterConcat` | script.js:169 | filtering distributes over concatenation, so kept elements keep their order |
| `JsArray.FilterPartition` | script.js:329-330 | filtering with complementary tests splits the input: the two results' multisets add up to the input's, and so do their lengths |
| `JsArray.SpliceStart` | script.js:296-297 | `splice`'s start index: kept when in range, counted from the end when negative and then floored at 0, and clamped to the length when past it |
| `JsArray.Move` | script.js:296-297 | removing index `i` and reinserting at `k` puts the element at `k`, shifts the elements in between by one, keeps the rest, and keeps the multiset |
| `JsArray.MoveBack` | script.js:296-297 | moving from `i` to `k` and then from `k` to `i` restores the sequence |
| `Store.DropApplies` | script.js:292 | the drop guard: a dragged id is set, is truthy (not 0), and differs from the target's id |
| `Store.DragIndex` | script.js:293-296 | where the dragged task is taken from: its first index when present, otherwise the last index, since `findIndex` gives -1 and `splice` counts -1 from the end |
| `Store.DropIndex` | script.js:294-297 | where the task is reinserted: the target's first index when present, otherwise -1 counted from the end of the shortened list, i.e. the second-to-last index, or 0 in a one-task list |
| `Store.Reorder` | script.js:292-297 | the drop acts only for a set, non-zero dragged id different from the target, and otherwise changes nothing; the result always has the same length, multiset and ids; when it acts it is the move from the `DragIndex` to the `DropIndex`, which with both ids present is the move from the dragged task's first index to the target's original first index |
| `Store.ReorderShape` | script.js:293-297 | with the target present, the dragged task sits at the target's original index, the tasks between shift one place, and all others stay |
| `Store.ReorderMissingId` | script.js:292-297 | with the target absent, the dragged task is moved to the second-to-last index (0 in a one-task list); with the dragged id absent, the last task is moved to the target's index |
| `JsArray.MoveShape` | script.js:296-297 | every move has the `MovedTo` shape: the element lands at `k`, those strictly between the two indexes shift one place towards `i`, and the rest stay |
| `Store.SwapKeepsFirstIndices` | script.js:293-294 | after two neighbours swap places, each is found by `findIndex` at the other's old index |
| `Store.ReorderAdjacentRestores` | script.js:292-297 | dropping a task on its neighbour and then the neighbour back on it restores the list |
| `Store.ReorderPreservesValidStore` | script.js:296-297 | reordering keeps the invariant |
| `JsString.Trim` | script.js:97 | `trim` gives a slice of its input with only white space before and after it, and none at either end of the slice; the result is empty exactly for blank input |
| `JsString.TrimTrimmed` | script.js:150 | trimming a string without surrounding white space changes nothing, so `trim` is idempotent |
| `JsString.ToLower` | script.js:170-171 | `toLowerCase` keeps the length and lowers each character by the ASCII mapping |
| `JsString.Includes` | script.js:170-171 | `includes`: the query is a prefix of the text or is included in the text without its first character |
| `JsString.Capitalize` | script.js:351 | `charAt(0).toUpperCase() + slice(1)`: same length, the first character upper-cased and the rest unchanged |
| `JsString.Join` | script.js:358-368 | `join` with a one-character separator: nothing for no parts, the part itself for one, otherwise the parts with the separator between neighbours |
| `JsString.JoinAvoids` | script.js:358-368 | a character that is not the separator and occurs in no part does not occur in the joined string |
| `JsString.IncludesIff` | script.js:170-171 | `includes` holds exactly when the query occurs at some index of the text |
| `Query.Compare` | script.js:181-193 | the comparator puts higher priority first; for equal priorities it puts the earlier due date first when both are dated, otherwise the later creation first |
| `Query.Rank` | script.js:182 | the `priorityOrder` table: high 3, medium 2, low 1 |
| `Query.Insert` | script.js:181-193 | insertion adds exactly one element, keeps the multiset, and keeps neighbouring pairs in comparator order |
| `Query.Sort` | script.js:181-193 | the sort is a permutation in which every neighbouring pair is in comparator order; it is stable for every class of tasks the comparator ties (`SortKeepsTieOrder`) |
| `Query.InsertKeepsTieOrder` | script.js:181-193 | for any class of tasks that pairwise compare as 0, inserting `x` into `s` orders that class as in `[x] + s`: `x`, when in the class, goes before the other members, and those keep their order |
| `Query.SortKeepsTieOrder` | script.js:181-193 | the sort is stable: for any class of tasks that pairwise compare as 0, the members keep their input order |
| `Query.SortKeepsPairOrder` | script.js:181-193 | any two tasks the comparator calls equal appear in the sorted result in their input order, the form in which ECMAScript states stability |
| `Query.DueAtTies` | script.js:184-189 | tasks of one priority due at one instant compare as 0 whatever their creation times |
| `Query.SameKeyTies` | script.js:184-192 | tasks with equal priority, due date and creation time compare as 0, dated or not |
| `Query.ViewKeepsTieOrder` | script.js:168-193 | in the view, the tasks of any class that pairwise compare as 0 appear in their list order |
| `Query.ViewKeepsDueAtOrder` | script.js:168-193 | in the view, tasks of one priority due at one instant appear in their list order, so a drag-and-drop reorder among them shows |
| `Query.LocallySortedIsRankSorted` | script.js:182-186 | neighbours in comparator order imply non-increasing priority rank over the whole sequence |
| `Query.CompareTransitive` | script.js:184-192 | among tasks that are all dated or all undated, comparator order is transitive |
| `Query.SortedWhenUniformlyDated` | script.js:188-192 | when all tasks are dated or none is, neighbour order extends to every pair |
| `Query.SearchMatches` | script.js:170-171 | the search matches when the lower-cased query occurs in the lower-cased text or in the lower-cased category |
| `Query.Visible` | script.js:169-180 | the filter callback: `active` keeps matching open tasks, `completed` keeps matching finished ones, any other filter keeps every matching task |
| `Query.View` | script.js:168-193 | a task is in the view exactly when it is in the list, matches the status filter and matches the search; the view is a permutation of the filtered list, with neighbours in comparator order and non-increasing priority rank |
| `Query.ViewEmptyQueryShowsAll` | script.js:169-180 | with an empty search and no status filter, the view holds every task, each as often as it is in the list |
| `Query.SearchIgnoresCase` | script.js:170-171 | queries that lower-case alike give the same view |
| `Query.SearchExample` | script.js:170-171 | "milk" and "MILK" both find a task whose text is "Buy Milk" |
| `Query.ViewNeighbourOrder` | script.js:184-192 | neighbours of equal priority in the view: earlier due date first when both are dated, otherwise later creation first |
| `Query.ViewOrderUndated` | script.js:192 | in a list without due dates, tasks of equal priority appear newest first |
| `Query.ViewOrderDated` | script.js:188-189 | in a list where every task is dated, tasks of equal priority appear earliest due first |
| `Query.MixedDatesOutOfOrder` | script.js:188-192 | with dated and undated tasks of equal priority mixed, a later due date can stay before an earlier one |
| `Query.CountTasks` | script.js:327-330 | the total is the length, the open and finished counts add up to it, and the finished count is zero exactly when no task is completed |
| `Query.StatusViewsPartition` | script.js:173-177 | with an empty search the `active` and `completed` views split the list between them, and their sizes are the panel's counters |
| `DueDates.CeilDiv` | script.js:202 | `Math.ceil(a / b)` in integers: the least `q` with `a <= b * q` |
| `DueDates.DueDateInfo` | script.js:196-214 | no badge exactly without a due date; overdue exactly when due is before now; due today exactly when due equals now; due tomorrow exactly when due is later than now by at most one day; otherwise the formatted date |
| `DueDates.TomorrowThenOverdue` | script.js:204-210 | a task due within the next day reads "Due tomorrow", and two days later "Overdue" |
| `DueDates.BadgeClassAndText` | script.js:204-213 | the class is `overdue` exactly before now, `due-soon` exactly within the next day and empty beyond it; the text is `Overdue`, `Due today` or `Due tomorrow` accordingly, else the formatted date |
| `CsvExport.PriorityLabel` | script.js:351 | the exported priority is `Low`, `Medium` or `High` |
| `CsvExport.Header` | script.js:357 | the column names, in the key order of the exported record: `Task`, `Status`, `Priority`, `Category`, `Due Date`, `Created At` |
| `CsvExport.Lines` | script.js:358-366 | one more line than rows: the header joined by commas first, then each row encoded in order |
| `CsvExport.ExportCsv` | script.js:342-368 | an empty list is refused with the nothing-to-export rejection, whose message is "No tasks to export!", and any other list is exported |
| `CsvExport.QuoteField` | script.js:363 | a value containing a comma is wrapped in double quotes; any other value is left as it is, embedded quotes included |
| `CsvExport.EncodeRow` | script.js:361-365 | a data line is the values, each quoted by that rule, joined by commas |
| `CsvExport.HeaderIsSafe` | script.js:357-358 | the column names contain no comma, double quote or line break |
| `CsvExport.DecodeEncodeRow` | script.js:361-365 | a row whose values contain no double quote reads back as the same values, whether or not they contain commas |
| `CsvExport.ExportRoundTrip` | script.js:342-368 | when no value contains a double quote or line break, the export reads back as the header followed by each task's `RowValues`, in store order. `RowValues` is the record of script.js:348-355: text, `Completed`/`Active`, the capitalised priority, category, the formatted due date or `No due date`, and the formatted creation time |
| `CsvExport.QuotesNotEscaped` | script.js:363 | a quoted value, that is one holding a comma, that also holds a double quote need not read back: the value `"x",y` is written as the line `""x",y"`, which reads back as two values |
| `CsvExport.QuoteInPlainValue` | script.js:363 | a double quote in a value without a comma is harmless: `5" nails` reads back unchanged |

## Left out

- Rendering, event binding, notifications and the theme toggle are presentation and are not
  modelled. So is the reset of the dragged id after a drop (script.js:304).
- Persistence through `localStorage` and JSON is not modelled. Neither is the load at start-up,
  whose `JSON.parse` is not guarded.
- Date parsing and locale formatting are not modelled. Timestamps are integer milliseconds.
  `toISOString` is not modelled. The formatters are opaque function parameters.
- `Date.now()` ids are a parameter of `AddTask`. Freshness is a hypothesis of
  `AddPreservesValidStore`, because the source does not guarantee it.
- `deleteTask`'s `confirm` gate is left to the caller, and `DeleteTask` is unconditional.
- The `Blob` download of the CSV text is not modelled. Only the text is.
- `Math.ceil` over floating-point division is modelled as integer ceiling division on exact
  millisecond differences.
- `toLowerCase` and `toUpperCase` are modelled with the ASCII case mapping only.
- `Store.Reorder`: a drop on an empty list is excluded by its precondition. There the source
  would splice `undefined` into the list, which a list of tasks cannot hold. This cannot
  happen in the page, because a drop needs a rendered task.
- `Query.Sort`: the browser's `Array.prototype.sort` is modelled as an insertion sort with the
  same comparator. It is stable, as ECMAScript requires: two tasks the comparator calls equal
  keep their input order (`SortKeepsPairOrder`). The comparator is not a total order, so
  engines may legitimately order mixed dated and undated tasks differently.
- The priority is one of the three values of the priority selector, `low`, `medium` and `high`.
  The markup that defines the selector is not part of this model.
- `CsvExport.ExportRoundTrip`: the round trip is stated only for values without double quotes
  and line breaks. Values with a line break never read back. A value with a double quote can
  fail only when it is quoted or starts with one (`QuotesNotEscaped` shows one that fails). Other
  values with a double quote do read back, like the one in `QuoteInPlainValue`, but the lemma
  does not cover them.

=== FILE: csv_export.dfy ===
/**
 * The CSV export: a header row and one row per task, in list order, joined by newlines.
 * A small reader for the same format is defined alongside so that the encoding can be
 * shown to be readable back.
 */
module CsvExport {
  import opened Results
  import opened JsString
  import opened Tasks

  /** The column names, in the order the row objects declare their keys. */
  const Header: seq<string> := ["Task", "Status", "Priority", "Category", "Due Date", "Created At"]

  /** The priority as exported: its first letter upper-cased. */
  function PriorityLabel(p: Priority): (r: string)
    ensures r == match p case Low => "Low" case Medium => "Medium" case High => "High"
  {
    Capitalize(PriorityName(p))
  }

  /**
   * The six values of a task's row, in `Header` order. `formatDateTime` stands for
   * `toLocaleString` on the due date and on the creation time.
   */
  function RowValues(t: Task, formatDateTime: int -> string): (r: seq<string>)
    ensures |r| == |Header|
  {
    [ t.text,
      if t.completed then "Completed" else "Active",
      PriorityLabel(t.priority),
      t.category,
      match t.dueDate
      case None => "No due date"
      case Some(d) => formatDateTime(d),
      formatDateTime(t.createdAt) ]
  }

  /** A value containing a comma is wrapped in double quotes; any other value is left as it is. */
  function QuoteField(v: string): string {
    if ',' in v then ['"'] + v + ['"'] else v
  }

  function QuoteAll(vs: seq<string>): (r: seq<string>)
    ensures |r| == |vs| && forall k :: 0 <= k < |vs| ==> r[k] == QuoteField(vs[k])
  {
    seq(|vs|, k requires 0 <= k < |vs| => QuoteField(vs[k]))
  }

  /** One data row: the quoted values joined by commas. */
  function EncodeRow(vs: seq<string>): string {
    Join(QuoteAll(vs), ',')
  }

  /** Each task's row values, in list order. */
  function Records(ts: seq<Task>, formatDateTime: int -> string): (r: seq<seq<string>>)
    ensures |r| == |ts|
    ensures forall i :: 0 <= i < |ts| ==> r[i] == RowValues(ts[i], formatDateTime)
  {
    seq(|ts|, i requires 0 <= i < |ts| => RowValues(ts[i], formatDateTime))
  }

  /** The lines of a CSV text: the column names joined by commas, then one encoded line per row. */
  function Lines(header: seq<string>, rows: seq<seq<string>>): (r: seq<string>)
    ensures |r| == |rows| + 1
    ensures r[0] == Join(header, ',')
    ensures forall i :: 0 <= i < |rows| ==> r[i + 1] == EncodeRow(rows[i])
  {
    [Join(header, ',')] + seq(|rows|, i requires 0 <= i < |rows| => EncodeRow(rows[i]))
  }

  /** `exportTasks`: refused for an empty list, otherwise the header line and one line per task, in list order. */
  function ExportCsv(ts: seq<Task>, formatDateTime: int -> string): (r: Result<string, Rejection>)
    ensures r.Failure? <==> |ts| == 0
    ensures r.Failure? ==> r.error == NothingToExport && Message(r.error) == "No tasks to export!"
  {
    if |ts| == 0 then Failure(NothingToExport)
    else Success(Join(Lines(Header, Records(ts, formatDateTime)), '\n'))
  }

  /** Index of the first `c` in `s`. */
  function FirstIndex(s: string, c: char): (k: nat)
    requires c in s
    ensures k < |s| && s[k] == c && c !in s[..k]
  {
    if s[0] == c then 0
    else
      var k := 1 + FirstIndex(s[1..], c);
      assert s[..k] == [s[0]] + s[1..][..k - 1];
      k
  }

  /** An occurrence of `c` with none before it is the first one. */
  lemma {:induction false} FirstIndexIs(s: string, c: char, j: int)
    requires 0 <= j < |s| && s[j] == c && c !in s[..j]
    ensures c in s && FirstIndex(s, c) == j
  {
    if j > 0 {
      assert s[0] in s[..j];
      assert s[1..][..j - 1] == s[..j][1..];
      FirstIndexIs(s[1..], c, j - 1);
    }
  }

  /** The first `c` in `x + [c] + y` is the one after `x` when `x` has none. */
  lemma FirstIndexAfter(x: string, c: char, y: string)
    requires c !in x
    ensures c in x + [c] + y
    ensures FirstIndex(x + [c] + y, c) == |x|
  {
    var s := x + [c] + y;
    assert s[..|x|] == x;
    FirstIndexIs(s, c, |x|);
  }

  /** Splits `s` at every `c`. */
  function SplitOn(s: string, c: char): (r: seq<string>)
    ensures |r| > 0
    decreases |s|
  {
    if c in s then
      var k := FirstIndex(s, c);
      [s[..k]] + SplitOn(s[k + 1..], c)
    else
      [s]
  }

  /** Splitting at the separator undoes joining parts that do not contain it. */
  lemma {:induction false} SplitJoin(xs: seq<string>, c: char)
    requires |xs| > 0
    requires forall k :: 0 <= k < |xs| ==> c !in xs[k]
    ensures SplitOn(Join(xs, c), c) == xs
  {
    if |xs| > 1 {
      var rest := Join(xs[1..], c);
      FirstIndexAfter(xs[0], c, rest);
      var s := xs[0] + [c] + rest;
      assert s[..|xs[0]|] == xs[0];
      assert s[|xs[0]| + 1..] == rest;
      SplitJoin(xs[1..], c);
    }
  }

  /**
   * Reads one line back into values: a field wrapped in double quotes runs to the next quote,
   * any other field runs to the next comma.
   */
  function DecodeRow(s: string): seq<string>
    decreases |s|
  {
    var e := if |s| > 0 && s[0] == '"' && '"' in s[1..] then 1 + FirstIndex(s[1..], '"') else 0;
    if e > 0 && e + 1 == |s| then [s[1..e]]
    else if e > 0 && e + 1 < |s| && s[e + 1] == ',' then [s[1..e]] + DecodeRow(s[e + 2..])
    else if ',' in s then
      var k := FirstIndex(s, ',');
      [s[..k]] + DecodeRow(s[k + 1..])
    else
      [s]
  }

  /** A last field reads back as its value. */
  lemma DecodeLastField(v: string)
    requires '"' !in v
    ensures DecodeRow(QuoteField(v)) == [v]
  {
    var s := QuoteField(v);
    if ',' in v {
      assert s[1..] == v + ['"'] + [];
      FirstIndexAfter(v, '"', []);
      assert s[1..|v| + 1] == v;
    } else {
      assert |v| > 0 ==> s[0] == v[0];
    }
  }

  /** A quoted field followed by a comma reads back as its value, then the rest of the line. */
  lemma DecodeQuotedThen(v: string, rest: string)
    requires '"' !in v && ',' in v
    ensures DecodeRow(QuoteField(v) + [','] + rest) == [v] + DecodeRow(rest)
  {
    var s := ['"'] + v + ['"'] + [','] + rest;
    assert s[1..] == v + ['"'] + ([','] + rest);
    FirstIndexAfter(v, '"', [','] + rest);
    assert s[1..|v| + 1] == v;
    assert s[|v| + 3..] == rest;
  }

  /** A plain field followed by a comma reads back as its value, then the rest of the line. */
  lemma DecodePlainThen(v: string, rest: string)
    requires '"' !in v && ',' !in v
    ensures DecodeRow(QuoteField(v) + [','] + rest) == [v] + DecodeRow(rest)
  {
    var s := v + [','] + rest;
    assert |v| > 0 ==> s[0] == v[0];
    FirstIndexAfter(v, ',', rest);
    assert s[..|v|] == v;
    assert s[|v| + 1..] == rest;
  }

  /** A field followed by a comma reads back as its value, then the rest of the line. */
  lemma DecodeFieldThen(v: string, rest: string)
    requires '"' !in v
    ensures DecodeRow(QuoteField(v) + [','] + rest) == [v] + DecodeRow(rest)
  {
    if ',' in v {
      DecodeQuotedThen(v, rest);
    } else {
      DecodePlainThen(v, rest);
    }
  }

  /** A row of values without double quotes reads back as the same values. */
  lemma {:induction false} DecodeEncodeRow(vs: seq<string>)
    requires |vs| > 0
    requires forall k :: 0 <= k < |vs| ==> '"' !in vs[k]
    ensures DecodeRow(EncodeRow(vs)) == vs
  {
    if |vs| == 1 {
      DecodeLastField(vs[0]);
    } else {
      assert QuoteAll(vs)[1..] == QuoteAll(vs[1..]);
      assert EncodeRow(vs) == QuoteField(vs[0]) + [','] + EncodeRow(vs[1..]);
      DecodeFieldThen(vs[0], EncodeRow(vs[1..]));
      DecodeEncodeRow(vs[1..]);
    }
  }

  /** Reads an export back: split into lines, then each line into values. */
  function Decode(csv: string): (r: seq<seq<string>>)
    ensures |r| == |SplitOn(csv, '\n')|
    ensures forall i :: 0 <= i < |r| ==> r[i] == DecodeRow(SplitOn(csv, '\n')[i])
  {
    var lines := SplitOn(csv, '\n');
    seq(|lines|, i requires 0 <= i < |lines| => DecodeRow(lines[i]))
  }

  /** No value contains a double quote or a line break. */
  predicate CsvSafe(vs: seq<string>) {
    forall k :: 0 <= k < |vs| ==> '"' !in vs[k] && '\n' !in vs[k]
  }

  /** The column names contain no comma, double quote or line break. */
  lemma HeaderIsSafe()
    ensures CsvSafe(Header)
    ensures forall k :: 0 <= k < |Header| ==> ',' !in Header[k]
  {
    forall k | 0 <= k < |Header|
      ensures ',' !in Header[k] && '"' !in Header[k] && '\n' !in Header[k]
    {
    }
  }

  /** Values without a comma go out unquoted, so their row is their plain join. */
  lemma UnquotedRow(vs: seq<string>)
    requires forall k :: 0 <= k < |vs| ==> ',' !in vs[k]
    ensures Join(vs, ',') == EncodeRow(vs)
  {
    assert QuoteAll(vs) == vs;
  }

  /** A row of values without a line break has no line break. */
  lemma RowWithoutBreaks(vs: seq<string>)
    requires forall k :: 0 <= k < |vs| ==> '\n' !in vs[k]
    ensures '\n' !in EncodeRow(vs)
  {
    var q := QuoteAll(vs);
    assert forall k :: 0 <= k < |q| ==> '\n' !in q[k];
    JoinAvoids(q, ',', '\n');
  }

  /** No line contains a line break when no column name or value does. */
  lemma LinesWithoutBreaks(header: seq<string>, rows: seq<seq<string>>)
    requires CsvSafe(header)
    requires forall i :: 0 <= i < |rows| ==> CsvSafe(rows[i])
    ensures forall i :: 0 <= i < |rows| + 1 ==> '\n' !in Lines(header, rows)[i]
  {
    var lines := Lines(header, rows);
    assert '\n' !in lines[0] by {
      JoinAvoids(header, ',', '\n');
    }
    assert forall i :: 0 <= i < |rows| ==> '\n' !in EncodeRow(rows[i]) by {
      forall i | 0 <= i < |rows|
        ensures '\n' !in EncodeRow(rows[i])
      {
        RowWithoutBreaks(rows[i]);
      }
    }
    forall i | 1 <= i < |lines|
      ensures '\n' !in lines[i]
    {
      assert lines[(i - 1) + 1] == EncodeRow(rows[i - 1]);
    }
  }

  /** Lines without line breaks, joined by line breaks, read back line by line. */
  lemma DecodeJoined(lines: seq<string>, first: seq<string>, rows: seq<seq<string>>)
    requires |lines| == |rows| + 1
    requires forall i :: 0 <= i < |lines| ==> '\n' !in lines[i]
    requires DecodeRow(lines[0]) == first
    requires forall i :: 0 <= i < |rows| ==> DecodeRow(lines[i + 1]) == rows[i]
    ensures Decode(Join(lines, '\n')) == [first] + rows
  {
    SplitJoin(lines, '\n');
    var d := Decode(Join(lines, '\n'));
    assert |d| == |[first] + rows|;
    forall i | 0 <= i < |d|
      ensures d[i] == ([first] + rows)[i]
    {
      if i > 0 {
        assert d[i] == DecodeRow(lines[(i - 1) + 1]);
      }
    }
  }

  /** Column names without commas or double quotes read back from their joined line. */
  lemma DecodeHeader(header: seq<string>)
    requires |header| > 0
    requires forall k :: 0 <= k < |header| ==> ',' !in header[k] && '"' !in header[k]
    ensures DecodeRow(Join(header, ',')) == header
  {
    UnquotedRow(header);
    DecodeEncodeRow(header);
  }

  /** Rows without double quotes read back from their encoded lines. */
  lemma DecodeRows(rows: seq<seq<string>>)
    requires forall i :: 0 <= i < |rows| ==> |rows[i]| > 0 && CsvSafe(rows[i])
    ensures forall i :: 0 <= i < |rows| ==> DecodeRow(EncodeRow(rows[i])) == rows[i]
  {
    forall i | 0 <= i < |rows|
      ensures DecodeRow(EncodeRow(rows[i])) == rows[i]
    {
      DecodeEncodeRow(rows[i]);
    }
  }

  /** Safe column names without commas and safe, non-empty rows read back as the names, then the rows. */
  lemma DecodeJoinedLines(header: seq<string>, rows: seq<seq<string>>)
    requires |header| > 0 && CsvSafe(header)
    requires forall k :: 0 <= k < |header| ==> ',' !in header[k]
    requires forall i :: 0 <= i < |rows| ==> |rows[i]| > 0 && CsvSafe(rows[i])
    ensures Decode(Join(Lines(header, rows), '\n')) == [header] + rows
  {
    LinesWithoutBreaks(header, rows);
    DecodeHeader(header);
    DecodeRows(rows);
    DecodeJoined(Lines(header, rows), header, rows);
  }

  /**
   * When no value contains a double quote or a line break, the export reads back as the header
   * followed by each task's values, in list order.
   */
  lemma ExportRoundTrip(ts: seq<Task>, formatDateTime: int -> string)
    requires |ts| > 0
    requires forall i :: 0 <= i < |ts| ==> CsvSafe(RowValues(ts[i], formatDateTime))
    ensures ExportCsv(ts, formatDateTime).Success?
    ensures Decode(ExportCsv(ts, formatDateTime).value) == [Header] + Records(ts, formatDateTime)
  {
    HeaderIsSafe();
    DecodeJoinedLines(Header, Records(ts, formatDateTime));
  }

  /**
   * Embedded double quotes are not escaped: the value `"x",y` is exported as `""x",y"`,
   * which reads back as two values.
   */
  lemma QuotesNotEscaped()
    ensures |DecodeRow(EncodeRow(["\"x\",y"]))| == 2
  {
    var s := EncodeRow(["\"x\",y"]);
    assert s == "\"\"x\",y\"";
    assert s[1..][0] == '"';
    assert s[2] == 'x';
    assert FirstIndex(s, ',') == 4 by {
      FirstIndexAfter("\"\"x\"", ',', "y\"");
      assert s == "\"\"x\"" + [','] + "y\"";
    }
    assert DecodeRow(s) == [s[..4]] + DecodeRow(s[5..]);
    assert s[5..] == "y\"";
    assert ',' !in s[5..];
  }

  /**
   * A double quote inside a value without a comma is harmless: the value `5" nails` is left
   * unquoted and reads back unchanged.
   */
  lemma QuoteInPlainValue()
    ensures DecodeRow(EncodeRow(["5\" nails"])) == ["5\" nails"]
  {
    var v := "5\" nails";
    assert ',' !in v;
    assert EncodeRow([v]) == v;
    assert v[0] == '5';
  }
}

=== FILE: due_dates.dfy ===
/** The due-date badge of a task: overdue, due today, due tomorrow, or a plain date. */
module DueDates {
  import opened Results

  /** `1000 * 60 * 60 * 24`: one day in milliseconds. */
  const DayMs: int := 1000 * 60 * 60 * 24

  /** `Math.ceil(a / b)` for a positive divisor, in integers. */
  function CeilDiv(a: int, b: int): (q: int)
    requires b > 0
    ensures b * (q - 1) < a <= b * q
  {
    -((-a) / b)
  }

  /** The badge: its `text` and CSS `class` are given by `Label` and `CssClass`. */
  datatype DueInfo = Overdue | DueToday | DueTomorrow | OnDate(date: string)

  function Label(d: DueInfo): string {
    match d
    case Overdue => "Overdue"
    case DueToday => "Due today"
    case DueTomorrow => "Due tomorrow"
    case OnDate(date) => date
  }

  function CssClass(d: DueInfo): string {
    match d
    case Overdue => "overdue"
    case DueToday => "due-soon"
    case DueTomorrow => "due-soon"
    case OnDate(_) => ""
  }

  /**
   * `getDueDateInfo`: no badge without a due date; otherwise classify the due instant against
   * `now` by the whole days remaining, rounded up. `formatDate` stands for `toLocaleDateString`.
   */
  function DueDateInfo(dueDate: Option<int>, now: int, formatDate: int -> string): (r: Option<DueInfo>)
    ensures r.None? <==> dueDate.None?
    ensures r.Some? ==> (r.value.Overdue? <==> dueDate.value < now)
    ensures r.Some? ==> (r.value.DueToday? <==> dueDate.value == now)
    ensures r.Some? ==> (r.value.DueTomorrow? <==> now < dueDate.value <= now + DayMs)
    ensures r.Some? ==> (r.value.OnDate? <==> now + DayMs < dueDate.value)
    ensures r.Some? && r.value.OnDate? ==> r.value.date == formatDate(dueDate.value)
  {
    match dueDate
    case None => None
    case Some(due) =>
      var diff := due - now;
      var days := CeilDiv(diff, DayMs);
      if diff < 0 then Some(Overdue)
      else if days <= 1 then Some(if days == 0 then DueToday else DueTomorrow)
      else Some(OnDate(formatDate(due)))
  }

  /** A task due within the next day reads "Due tomorrow", and two days later "Overdue". */
  lemma TomorrowThenOverdue(due: int, now: int, formatDate: int -> string)
    requires now < due <= now + DayMs
    ensures DueDateInfo(Some(due), now, formatDate) == Some(DueTomorrow)
    ensures DueDateInfo(Some(due), now + 2 * DayMs, formatDate) == Some(Overdue)
  {
  }

  /**
   * The badge's CSS class and text: `overdue` exactly before now, `due-soon` exactly within the
   * next day, no class beyond it; the text names the case unless the badge shows a date.
   */
  lemma BadgeClassAndText(due: int, now: int, formatDate: int -> string)
    ensures var b := DueDateInfo(Some(due), now, formatDate).value;
      && (CssClass(b) == "overdue" <==> due < now)
      && (CssClass(b) == "due-soon" <==> now <= due <= now + DayMs)
      && (CssClass(b) == "" <==> now + DayMs < due)
      && (due <= now + DayMs ==>
            Label(b) == if due < now then "Overdue" else if due == now then "Due today" else "Due tomorrow")
      && (now + DayMs < due ==> Label(b) == formatDate(due))
  {
  }
}

=== FILE: js_array.dfy ===
/** The `Array.prototype` operations the task list relies on, over immutable sequences. */
module JsArray {

  /** `s.filter(keep)`: the elements of `s` that satisfy `keep`, in their original order. */
  function Filter<T>(s: seq<T>, keep: T -> bool): (r: seq<T>)
    ensures |r| <= |s|
    ensures forall i :: 0 <= i < |r| ==> keep(r[i])
  {
    if |s| == 0 then []
    else (if keep(s[0]) then [s[0]] else []) + Filter(s[1..], keep)
  }

  /** An element is kept exactly when it occurs in `s` and passes the test. */
  lemma {:induction false} FilterMembers<T>(s: seq<T>, keep: T -> bool)
    ensures forall x :: x in Filter(s, keep) <==> x in s && keep(x)
  {
    if |s| > 0 {
      FilterMembers(s[1..], keep);
      assert s == [s[0]] + s[1..];
    }
  }

  /** Filtering distributes over concatenation, so kept elements keep their relative order. */
  lemma {:induction false} FilterConcat<T>(a: seq<T>, b: seq<T>, keep: T -> bool)
    ensures Filter(a + b, keep) == Filter(a, keep) + Filter(b, keep)
  {
    if |a| > 0 {
      assert (a + b)[0] == a[0];
      assert (a + b)[1..] == a[1..] + b;
      FilterConcat(a[1..], b, keep);
    } else {
      assert a + b == b;
    }
  }

  /** Filtering a sequence with one element in front: that element if it passes, then the rest filtered. */
  lemma FilterCons<T>(x: T, s: seq<T>, keep: T -> bool)
    ensures Filter([x] + s, keep) == (if keep(x) then [x] else []) + Filter(s, keep)
  {
    assert ([x] + s)[1..] == s;
  }

  /**
   * Moving `x` past an element `y` that the test cannot keep together with it leaves the
   * filtered sequence unchanged.
   */
  lemma FilterPastOne<T>(x: T, y: T, t: seq<T>, u: seq<T>, keep: T -> bool)
    requires !(keep(x) && keep(y))
    requires Filter(t, keep) == Filter([x] + u, keep)
    ensures Filter([y] + t, keep) == Filter([x] + ([y] + u), keep)
  {
    FilterCons(y, t, keep);
    FilterCons(x, u, keep);
    FilterCons(x, [y] + u, keep);
    FilterCons(y, u, keep);
  }

  /** Filtering with a test every element passes is the identity. */
  lemma {:induction false} FilterAll<T>(s: seq<T>, keep: T -> bool)
    requires forall x :: x in s ==> keep(x)
    ensures Filter(s, keep) == s
  {
    if |s| > 0 {
      FilterAll(s[1..], keep);
    }
  }

  /** Filtering drops exactly the one index whose element fails the test. */
  lemma {:induction false} FilterDropsOne<T>(s: seq<T>, keep: T -> bool, i: int)
    requires 0 <= i < |s|
    requires !keep(s[i])
    requires forall k :: 0 <= k < |s| && k != i ==> keep(s[k])
    ensures Filter(s, keep) == s[..i] + s[i + 1..]
  {
    if i == 0 {
      assert forall x :: x in s[1..] ==> keep(x) by {
        forall x | x in s[1..]
          ensures keep(x)
        {
          var k :| 0 <= k < |s[1..]| && s[1..][k] == x;
          assert s[k + 1] == x;
        }
      }
      FilterAll(s[1..], keep);
    } else {
      FilterDropsOne(s[1..], keep, i - 1);
      assert s[..i] + s[i + 1..] == [s[0]] + (s[1..][..i - 1] + s[1..][i..]);
    }
  }

  /** Two tests that agree on every element of `s` filter it identically. */
  lemma {:induction false} FilterCongruent<T>(s: seq<T>, p: T -> bool, q: T -> bool)
    requires forall x :: x in s ==> p(x) == q(x)
    ensures Filter(s, p) == Filter(s, q)
  {
    if |s| > 0 {
      FilterCongruent(s[1..], p, q);
    }
  }

  /** Filtering with complementary tests splits `s` into two parts that together make up `s`. */
  lemma {:induction false} FilterPartition<T>(s: seq<T>, p: T -> bool, q: T -> bool)
    requires forall x :: x in s ==> (q(x) <==> !p(x))
    ensures multiset(Filter(s, p)) + multiset(Filter(s, q)) == multiset(s)
    ensures |Filter(s, p)| + |Filter(s, q)| == |s|
  {
    if |s| > 0 {
      FilterPartition(s[1..], p, q);
      assert s == [s[0]] + s[1..];
    }
  }

  /** The start index `splice(start, ...)` acts on in an array of length `len`. */
  function SpliceStart(start: int, len: nat): (k: nat)
    ensures k <= len
    ensures 0 <= start <= len ==> k == start
    ensures len <= start ==> k == len
    ensures start < 0 ==> k == if len + start < 0 then 0 else len + start
  {
    if start < 0 then (if len + start < 0 then 0 else len + start)
    else if start < len then start
    else len
  }

  /** `s.splice(i, 1)` on an index in range: the array without its element at `i`. */
  function RemoveAt<T>(s: seq<T>, i: nat): (r: seq<T>)
    requires i < |s|
    ensures |r| == |s| - 1
    ensures forall m :: 0 <= m < i ==> r[m] == s[m]
    ensures forall m :: i <= m < |r| ==> r[m] == s[m + 1]
    ensures multiset(r) + multiset{s[i]} == multiset(s)
  {
    assert s == s[..i] + [s[i]] + s[i + 1..];
    s[..i] + s[i + 1..]
  }

  /** `s.splice(k, 0, x)` on an index in range: `x` inserted so that it sits at index `k`. */
  function InsertAt<T>(s: seq<T>, k: nat, x: T): (r: seq<T>)
    requires k <= |s|
    ensures |r| == |s| + 1
    ensures r[k] == x
    ensures forall m :: 0 <= m < k ==> r[m] == s[m]
    ensures forall m :: k < m < |r| ==> r[m] == s[m - 1]
    ensures multiset(r) == multiset(s) + multiset{x}
  {
    assert s == s[..k] + s[k..];
    s[..k] + [x] + s[k..]
  }

  /**
   * `var [x] = s.splice(i, 1); s.splice(k, 0, x)` with both indices in range:
   * the element at `i` ends at index `k`, those between shift by one towards `i`,
   * and the rest stay where they were.
   */
  function Move<T>(s: seq<T>, i: nat, k: nat): (r: seq<T>)
    requires i < |s| && k < |s|
    ensures |r| == |s|
    ensures r[k] == s[i]
    ensures forall m :: 0 <= m < |s| && m < i && m < k ==> r[m] == s[m]
    ensures forall m :: 0 <= m < |s| && m > i && m > k ==> r[m] == s[m]
    ensures forall m :: i <= m < k ==> r[m] == s[m + 1]
    ensures forall m :: k < m <= i ==> r[m] == s[m - 1]
    ensures multiset(r) == multiset(s)
  {
    InsertAt(RemoveAt(s, i), k, s[i])
  }

  /**
   * The position-by-position effect of moving index `i` to index `k`: the
   * moved element lands at `k`, elements outside the range between the two
   * indexes stay, and those inside it shift one place towards `i`.
   */
  ghost predicate MovedTo<T>(s: seq<T>, r: seq<T>, i: nat, k: nat) {
    && |r| == |s| && i < |s| && k < |s| && r[k] == s[i]
    && (forall m :: 0 <= m < |s| && m < i && m < k ==> r[m] == s[m])
    && (forall m :: 0 <= m < |s| && m > i && m > k ==> r[m] == s[m])
    && (forall m :: i <= m < k ==> r[m] == s[m + 1])
    && (forall m :: k < m <= i ==> r[m] == s[m - 1])
  }

  /** The positional shape of a move, for a sequence known to equal it. */
  lemma MoveShape<T>(s: seq<T>, i: nat, k: nat, r: seq<T>)
    requires i < |s| && k < |s| && r == Move(s, i, k)
    ensures MovedTo(s, r, i, k)
  {
  }

  /** The index of `s` whose element `Move(s, i, k)` places at index `m`. */
  function MoveSource(i: nat, k: nat, m: nat): nat {
    if m == k then i
    else if (m < i && m < k) || (m > i && m > k) then m
    else if i < k then m + 1
    else m - 1
  }

  /** Moving an element back to where it came from restores the sequence. */
  lemma MoveBack<T>(s: seq<T>, i: nat, k: nat)
    requires i < |s| && k < |s|
    ensures Move(Move(s, i, k), k, i) == s
  {
    var t := Move(s, i, k);
    var r := Move(t, k, i);
    forall m | 0 <= m < |s|
      ensures r[m] == s[m]
    {
      if m == i {
        assert r[m] == t[k];
      } else if i < k && i < m <= k {
        assert r[m] == t[m - 1];
      } else if k < i && k <= m < i {
        assert r[m] == t[m + 1];
      } else {
        assert r[m] == t[m];
      }
    }
  }

  /** Moving an element one place either way swaps it with its neighbour. */
  lemma MoveAdjacentSymmetric<T>(s: seq<T>, i: nat, k: nat)
    requires i < |s| && k < |s|
    requires i == k + 1 || k == i + 1
    ensures Move(s, i, k) == Move(s, k, i)
  {
    var a := Move(s, i, k);
    var b := Move(s, k, i);
    assert forall m :: 0 <= m < |s| ==> a[m] == b[m];
  }
}

=== FILE: js_string.dfy ===
/** The ECMAScript string primitives the task list relies on, over `seq<char>`. */
module JsString {

  /** ECMAScript WhiteSpace or LineTerminator: the code points `String.prototype.trim` strips. */
  predicate IsSpace(c: char) {
    || c == '\t' || c == '\n' || c == '\U{000B}' || c == '\U{000C}' || c == '\r' || c == ' '
    || c == '\U{00A0}' || c == '\U{1680}' || ('\U{2000}' <= c <= '\U{200A}')
    || c == '\U{2028}' || c == '\U{2029}' || c == '\U{202F}' || c == '\U{205F}'
    || c == '\U{3000}' || c == '\U{FEFF}'
  }

  /** Every character is white space, which is exactly when `s.trim()` is falsy. */
  predicate Blank(s: string) {
    forall i :: 0 <= i < |s| ==> IsSpace(s[i])
  }

  /** Drops the leading white space: the suffix of `s` that starts at its first non-space. */
  function TrimStart(s: string): (r: string)
    ensures |r| <= |s| && r == s[|s| - |r|..]
    ensures forall i :: 0 <= i < |s| - |r| ==> IsSpace(s[i])
    ensures r == [] || !IsSpace(r[0])
  {
    if |s| > 0 && IsSpace(s[0]) then
      var r := TrimStart(s[1..]);
      assert forall i :: 1 <= i < |s| - |r| ==> s[i] == s[1..][i - 1];
      r
    else
      s
  }

  /** Drops the trailing white space: the prefix of `s` that ends at its last non-space. */
  function TrimEnd(s: string): (r: string)
    ensures |r| <= |s| && r == s[..|r|]
    ensures forall i :: |r| <= i < |s| ==> IsSpace(s[i])
    ensures r == [] || !IsSpace(r[|r| - 1])
  {
    if |s| > 0 && IsSpace(s[|s| - 1]) then
      var r := TrimEnd(s[..|s| - 1]);
      assert forall i :: |r| <= i < |s| - 1 ==> s[i] == s[..|s| - 1][i];
      r
    else
      s
  }

  /** No white space at either end: what `trim` leaves. */
  predicate Trimmed(s: string) {
    s == [] || (!IsSpace(s[0]) && !IsSpace(s[|s| - 1]))
  }

  /** `r` is the slice of `s` at `a`, with only white space before and after it. */
  predicate TrimmedSliceAt(s: string, r: string, a: int) {
    0 <= a <= |s| - |r| && r == s[a..a + |r|] && Blank(s[..a]) && Blank(s[a + |r|..])
  }

  /** `r` is `s` with some white space removed at the start and some at the end, and nothing else. */
  predicate StripsTo(s: string, r: string) {
    exists a | 0 <= a <= |s| :: TrimmedSliceAt(s, r, a)
  }

  /** `String.prototype.trim`: `s` with only its leading and trailing white space removed. */
  function Trim(s: string): (r: string)
    ensures |r| <= |s|
    ensures StripsTo(s, r)
    ensures r == [] <==> Blank(s)
    ensures Trimmed(r)
  {
    var t := TrimStart(s);
    var r := TrimEnd(t);
    TrimEnds(s);
    SliceBetweenBlanks(s, t, r);
    assert TrimmedSliceAt(s, r, |s| - |t|);
    r
  }

  /** A prefix of white space is blank. */
  lemma BlankPrefix(s: string, a: int)
    requires 0 <= a <= |s|
    requires forall i :: 0 <= i < a ==> IsSpace(s[i])
    ensures Blank(s[..a])
  {
    assert forall i :: 0 <= i < a ==> s[..a][i] == s[i];
  }

  /** A suffix of white space is blank. */
  lemma BlankSuffix(s: string, b: int)
    requires 0 <= b <= |s|
    requires forall i :: b <= i < |s| ==> IsSpace(s[i])
    ensures Blank(s[b..])
  {
    assert forall i :: 0 <= i < |s| - b ==> s[b..][i] == s[b + i];
  }

  /** A suffix `t` of `s` after a white-space prefix, cut before a white-space tail, is a trimmed slice of `s`. */
  lemma SliceBetweenBlanks(s: string, t: string, r: string)
    requires |t| <= |s| && t == s[|s| - |t|..]
    requires forall i :: 0 <= i < |s| - |t| ==> IsSpace(s[i])
    requires |r| <= |t| && r == t[..|r|]
    requires forall i :: |r| <= i < |t| ==> IsSpace(t[i])
    ensures TrimmedSliceAt(s, r, |s| - |t|)
  {
    var a := |s| - |t|;
    assert r == s[a..a + |r|];
    BlankPrefix(s, a);
    forall i | a + |r| <= i < |s|
      ensures IsSpace(s[i])
    {
      assert s[i] == t[i - a];
    }
    BlankSuffix(s, a + |r|);
  }

  /** Trimming both ends leaves nothing exactly for blank strings, and leaves no white space at either end. */
  lemma TrimEnds(s: string)
    ensures TrimEnd(TrimStart(s)) == [] <==> Blank(s)
    ensures Trimmed(TrimEnd(TrimStart(s)))
  {
    var a := TrimStart(s);
    var r := TrimEnd(a);
    if a != [] {
      assert a[0] == s[|s| - |a|];
      assert r != [] by { assert !IsSpace(a[0]); }
      assert r[0] == a[0];
    }
  }

  /** Trimming a string with no surrounding white space changes nothing; in particular `trim` is idempotent. */
  lemma TrimTrimmed(s: string)
    requires Trimmed(s)
    ensures Trim(s) == s
  {
    assert TrimStart(s) == s;
    assert TrimEnd(s) == s;
  }

  /** ASCII part of `toLowerCase`. */
  function LowerChar(c: char): char {
    if 'A' <= c <= 'Z' then (c as int + 32) as char else c
  }

  /** ASCII part of `toUpperCase`. */
  function UpperChar(c: char): char {
    if 'a' <= c <= 'z' then (c as int - 32) as char else c
  }

  /** `s.toLowerCase()`, restricted to the ASCII case mapping. */
  function ToLower(s: string): (r: string)
    ensures |r| == |s|
    ensures forall i :: 0 <= i < |s| ==> r[i] == LowerChar(s[i])
  {
    seq(|s|, i requires 0 <= i < |s| => LowerChar(s[i]))
  }

  /** `s.charAt(0).toUpperCase() + s.slice(1)`, with the ASCII case mapping. */
  function Capitalize(s: string): (r: string)
    ensures |r| == |s|
    ensures |s| > 0 ==> r[0] == UpperChar(s[0]) && r[1..] == s[1..]
  {
    if |s| == 0 then "" else [UpperChar(s[0])] + s[1..]
  }

  /** `q` occurs in `s` starting at index `i`. */
  predicate OccursAt(s: string, q: string, i: int) {
    0 <= i && i + |q| <= |s| && s[i..i + |q|] == q
  }

  /** `s.includes(q)`. */
  function Includes(s: string, q: string): (r: bool)
    ensures |q| == 0 ==> r
    ensures r ==> |q| <= |s|
    decreases |s|
  {
    q <= s || (|s| > 0 && Includes(s[1..], q))
  }

  /** `Includes` holds exactly when `q` occurs somewhere in `s`. */
  lemma {:induction false} IncludesIff(s: string, q: string)
    ensures Includes(s, q) <==> exists i :: OccursAt(s, q, i)
    decreases |s|
  {
    if |s| > 0 {
      IncludesIff(s[1..], q);
    }
    if Includes(s, q) {
      if q <= s {
        assert OccursAt(s, q, 0);
      } else {
        var i :| OccursAt(s[1..], q, i);
        assert s[i + 1..i + 1 + |q|] == s[1..][i..i + |q|];
        assert OccursAt(s, q, i + 1);
      }
    }
    if exists i :: OccursAt(s, q, i) {
      var i :| OccursAt(s, q, i);
      if i > 0 {
        assert s[1..][i - 1..i - 1 + |q|] == s[i..i + |q|];
        assert OccursAt(s[1..], q, i - 1);
      } else {
        assert q == s[..|q|];
      }
    }
  }

  /** `xs.join(sep)` for a one-character separator. */
  function Join(xs: seq<string>, sep: char): string {
    if |xs| == 0 then ""
    else if |xs| == 1 then xs[0]
    else xs[0] + [sep] + Join(xs[1..], sep)
  }

  /** A character that is not the separator and occurs in none of the parts does not occur in the joined string. */
  lemma {:induction false} JoinAvoids(xs: seq<string>, sep: char, c: char)
    requires c != sep
    requires forall k :: 0 <= k < |xs| ==> c !in xs[k]
    ensures c !in Join(xs, sep)
  {
    if |xs| > 1 {
      JoinAvoids(xs[1..], sep, c);
    }
  }
}

=== FILE: query.dfy ===
/**
 * The derived view of the task list: status filter, case-insensitive search, and the
 * priority / due date / creation time ordering; plus the counters of the stats panel.
 */
module Query {
  import opened Results
  import opened JsString
  import opened JsArray
  import opened Tasks

  /** The `priorityOrder` table: high 3, medium 2, low 1. */
  function Rank(p: Priority): int {
    match p
    case High => 3
    case Medium => 2
    case Low => 1
  }

  /**
   * The sort comparator; a negative result puts `a` first. Higher priority first; between equal
   * priorities the earlier due date first when both have one, otherwise the later creation first.
   */
  function Compare(a: Task, b: Task): (c: int)
    ensures a.priority != b.priority ==> c != 0 && (c < 0 <==> Rank(a.priority) > Rank(b.priority))
    ensures a.priority == b.priority && a.dueDate.Some? && b.dueDate.Some? ==>
      (c <= 0 <==> a.dueDate.value <= b.dueDate.value)
    ensures a.priority == b.priority && (a.dueDate.None? || b.dueDate.None?) ==>
      (c <= 0 <==> a.createdAt >= b.createdAt)
  {
    if a.priority != b.priority then Rank(b.priority) - Rank(a.priority)
    else if a.dueDate.Some? && b.dueDate.Some? then a.dueDate.value - b.dueDate.value
    else b.createdAt - a.createdAt
  }

  /** Swapping the arguments negates the comparator. */
  lemma CompareAntisymmetric(a: Task, b: Task)
    ensures Compare(a, b) == -Compare(b, a)
  {
  }

  /** Every neighbouring pair is in comparator order. */
  predicate LocallySorted(s: seq<Task>) {
    forall k :: 0 <= k < |s| - 1 ==> Compare(s[k], s[k + 1]) <= 0
  }

  /** Priority rank never increases along the sequence. */
  predicate RankSorted(s: seq<Task>) {
    forall i, j :: 0 <= i < j < |s| ==> Rank(s[i].priority) >= Rank(s[j].priority)
  }

  /** Inserts `x` before the first task it does not sort after, keeping ties in input order. */
  function Insert(x: Task, s: seq<Task>): (r: seq<Task>)
    ensures |r| == |s| + 1
    ensures multiset(r) == multiset(s) + multiset{x}
    ensures r[0] == x || (|s| > 0 && r[0] == s[0])
    ensures LocallySorted(s) ==> LocallySorted(r)
    decreases |s|
  {
    if |s| == 0 then [x]
    else if Compare(x, s[0]) <= 0 then [x] + s
    else
      assert s == [s[0]] + s[1..];
      var rest := Insert(x, s[1..]);
      var r := [s[0]] + rest;
      assert LocallySorted(s) ==> LocallySorted(r) by {
        if LocallySorted(s) {
          assert LocallySorted(s[1..]) by {
            forall k | 0 <= k < |s| - 2
              ensures Compare(s[1..][k], s[1..][k + 1]) <= 0
            {
              assert s[1..][k] == s[k + 1] && s[1..][k + 1] == s[k + 2];
            }
          }
          CompareAntisymmetric(x, s[0]);
          assert Compare(r[0], r[1]) <= 0;
          forall k | 1 <= k < |r| - 1
            ensures Compare(r[k], r[k + 1]) <= 0
          {
            assert r[k] == rest[k - 1] && r[k + 1] == rest[k];
          }
        }
      }
      r
  }

  /**
   * The stable sort of the view, as an insertion sort driven by `Compare`. The comparator is not
   * transitive when dated and undated tasks of equal priority mix, so only neighbouring pairs are
   * guaranteed to be in comparator order.
   */
  function Sort(s: seq<Task>): (r: seq<Task>)
    ensures |r| == |s|
    ensures multiset(r) == multiset(s)
    ensures LocallySorted(r)
  {
    if |s| == 0 then []
    else
      assert s == [s[0]] + s[1..];
      Insert(s[0], Sort(s[1..]))
  }

  /** A class of tasks the comparator cannot tell apart: any two of them compare as 0. */
  ghost predicate Ties(keep: Task -> bool) {
    forall a, b :: keep(a) && keep(b) ==> Compare(a, b) == 0
  }

  /** Inserting `x` passes over no task it ties with, so each tie class keeps its order. */
  lemma {:induction false} InsertKeepsTieOrder(x: Task, s: seq<Task>, keep: Task -> bool)
    requires Ties(keep)
    ensures Filter(Insert(x, s), keep) == Filter([x] + s, keep)
    decreases |s|
  {
    if |s| > 0 && Compare(x, s[0]) > 0 {
      var y, rest := s[0], s[1..];
      assert s == [y] + rest;
      assert Insert(x, s) == [y] + Insert(x, rest);
      InsertKeepsTieOrder(x, rest, keep);
      FilterPastOne(x, y, Insert(x, rest), rest, keep);
    }
  }

  /** The sort is stable: the tasks of any tie class keep their input order. */
  lemma {:induction false} SortKeepsTieOrder(s: seq<Task>, keep: Task -> bool)
    requires Ties(keep)
    ensures Filter(Sort(s), keep) == Filter(s, keep)
  {
    if |s| > 0 {
      SortKeepsTieOrder(s[1..], keep);
      InsertKeepsTieOrder(s[0], Sort(s[1..]), keep);
      FilterCons(s[0], Sort(s[1..]), keep);
      FilterCons(s[0], s[1..], keep);
      assert s == [s[0]] + s[1..];
    }
  }

  /** The two tasks `a` and `b`. */
  function EitherOf(a: Task, b: Task): Task -> bool {
    t => t == a || t == b
  }

  /**
   * Stability in the terms of `Array.prototype.sort`: two tasks the comparator calls equal
   * appear in the sorted result in the order they had in the input.
   */
  lemma SortKeepsPairOrder(s: seq<Task>, a: Task, b: Task)
    requires Compare(a, b) == 0
    ensures Filter(Sort(s), EitherOf(a, b)) == Filter(s, EitherOf(a, b))
  {
    CompareAntisymmetric(a, b);
    SortKeepsTieOrder(s, EitherOf(a, b));
  }

  /** The tasks of priority `p` due at the instant `due`. */
  function DueAt(p: Priority, due: int): Task -> bool {
    (t: Task) => t.priority == p && t.dueDate == Some(due)
  }

  /** Tasks of one priority due at one instant tie whatever their creation times. */
  lemma DueAtTies(p: Priority, due: int)
    ensures Ties(DueAt(p, due))
  {
  }

  /** Equal priority, due date and creation time. */
  function SameKeyAs(k: Task): Task -> bool {
    (t: Task) => t.priority == k.priority && t.dueDate == k.dueDate && t.createdAt == k.createdAt
  }

  /** Tasks with equal priority, due date and creation time tie, dated or not. */
  lemma SameKeyTies(k: Task)
    ensures Ties(SameKeyAs(k))
  {
  }

  /** Neighbours in comparator order means the whole sequence is in rank order. */
  lemma {:induction false} LocallySortedIsRankSorted(s: seq<Task>)
    requires LocallySorted(s)
    ensures RankSorted(s)
  {
    if |s| > 1 {
      LocallySortedIsRankSorted(s[1..]);
      assert Rank(s[0].priority) >= Rank(s[1].priority);
      forall i, j | 0 <= i < j < |s|
        ensures Rank(s[i].priority) >= Rank(s[j].priority)
      {
        if i > 0 {
          assert s[i] == s[1..][i - 1] && s[j] == s[1..][j - 1];
        } else if j > 1 {
          assert s[1] == s[1..][0] && s[j] == s[1..][j - 1];
        }
      }
    }
  }

  /** Every task of `s` has a due date, or none has. */
  predicate UniformlyDated(s: seq<Task>) {
    (forall t | t in s :: t.dueDate.Some?) || (forall t | t in s :: t.dueDate.None?)
  }

  /** Among tasks that all have due dates, or all lack one, comparator order is transitive. */
  lemma CompareTransitive(a: Task, b: Task, c: Task)
    requires UniformlyDated([a, b, c])
    requires Compare(a, b) <= 0 && Compare(b, c) <= 0
    ensures Compare(a, c) <= 0
  {
    assert a in [a, b, c] && b in [a, b, c] && c in [a, b, c];
  }

  /** When the tasks are uniformly dated, neighbour order extends to every pair. */
  lemma {:induction false} SortedWhenUniformlyDated(s: seq<Task>)
    requires LocallySorted(s)
    requires UniformlyDated(s)
    ensures forall i, j :: 0 <= i < j < |s| ==> Compare(s[i], s[j]) <= 0
  {
    if |s| > 1 {
      var tail := s[1..];
      assert forall t | t in tail :: t in s;
      SortedWhenUniformlyDated(tail);
      forall j | 1 < j < |s|
        ensures Compare(s[0], s[j]) <= 0
      {
        assert s[1] == tail[0] && s[j] == tail[j - 1];
        assert s[0] in s && s[1] in s && s[j] in s;
        CompareTransitive(s[0], s[1], s[j]);
      }
      forall i, j | 0 <= i < j < |s|
        ensures Compare(s[i], s[j]) <= 0
      {
        if i > 0 {
          assert s[i] == tail[i - 1] && s[j] == tail[j - 1];
        }
      }
    }
  }

  /** `text.toLowerCase().includes(query.toLowerCase())` on the text or on the category. */
  predicate SearchMatches(t: Task, query: string) {
    Includes(ToLower(t.text), ToLower(query)) || Includes(ToLower(t.category), ToLower(query))
  }

  /** The filter callback: the switch on the current status filter, combined with the search. */
  predicate Visible(t: Task, filter: string, query: string) {
    if filter == "active" then !t.completed && SearchMatches(t, query)
    else if filter == "completed" then t.completed && SearchMatches(t, query)
    else SearchMatches(t, query)
  }

  function VisibleIn(filter: string, query: string): Task -> bool {
    t => Visible(t, filter, query)
  }

  /**
   * `getFilteredTasks`: the tasks that pass the status filter and the search, sorted.
   * `active` keeps open tasks, `completed` finished ones, any other filter keeps both.
   */
  function View(ts: seq<Task>, filter: string, query: string): (r: seq<Task>)
    ensures forall t | t in r ::
      && t in ts
      && (filter == "active" ==> !t.completed)
      && (filter == "completed" ==> t.completed)
      && SearchMatches(t, query)
    ensures forall t | t in ts ::
      && (filter == "active" ==> !t.completed)
      && (filter == "completed" ==> t.completed)
      && SearchMatches(t, query)
      ==> t in r
    ensures multiset(r) == multiset(Filter(ts, VisibleIn(filter, query)))
    ensures LocallySorted(r) && RankSorted(r)
  {
    var kept := Filter(ts, VisibleIn(filter, query));
    FilterMembers(ts, VisibleIn(filter, query));
    var r := Sort(kept);
    LocallySortedIsRankSorted(r);
    assert forall t :: t in r <==> t in multiset(r);
    assert forall t :: t in kept <==> t in multiset(kept);
    r
  }

  /** In the view, the tasks of any tie class appear in their list order. */
  lemma ViewKeepsTieOrder(ts: seq<Task>, filter: string, query: string, keep: Task -> bool)
    requires Ties(keep)
    ensures Filter(View(ts, filter, query), keep) == Filter(Filter(ts, VisibleIn(filter, query)), keep)
  {
    SortKeepsTieOrder(Filter(ts, VisibleIn(filter, query)), keep);
  }

  /**
   * In the view, tasks of one priority due at one instant appear in their list order, so a
   * drag-and-drop reorder among them shows.
   */
  lemma ViewKeepsDueAtOrder(ts: seq<Task>, filter: string, query: string, p: Priority, due: int)
    ensures Filter(View(ts, filter, query), DueAt(p, due))
         == Filter(Filter(ts, VisibleIn(filter, query)), DueAt(p, due))
  {
    DueAtTies(p, due);
    ViewKeepsTieOrder(ts, filter, query, DueAt(p, due));
  }

  /** An empty search with no status filter shows every task, each as often as it is in the list. */
  lemma ViewEmptyQueryShowsAll(ts: seq<Task>, filter: string)
    requires filter != "active" && filter != "completed"
    ensures multiset(View(ts, filter, "")) == multiset(ts)
  {
    assert ToLower("") == "";
    FilterAll(ts, VisibleIn(filter, ""));
  }

  /** Queries that lowercase alike select the same view: the search ignores ASCII case. */
  lemma SearchIgnoresCase(ts: seq<Task>, filter: string, q1: string, q2: string)
    requires ToLower(q1) == ToLower(q2)
    ensures View(ts, filter, q1) == View(ts, filter, q2)
  {
    FilterCongruent(ts, VisibleIn(filter, q1), VisibleIn(filter, q2));
  }

  /** The query "milk" finds a task whose text is "Buy Milk". */
  lemma SearchExample(t: Task)
    requires t.text == "Buy Milk"
    ensures SearchMatches(t, "milk") && SearchMatches(t, "MILK")
  {
    assert ToLower("Buy Milk") == "buy milk";
    assert ToLower("milk") == "milk";
    assert ToLower("MILK") == "milk";
    assert OccursAt("buy milk", "milk", 4);
    IncludesIff("buy milk", "milk");
  }

  /**
   * Neighbouring tasks of equal priority in a view: the earlier due date first when both are
   * dated, otherwise the later creation first.
   */
  lemma ViewNeighbourOrder(ts: seq<Task>, filter: string, query: string)
    ensures var v := View(ts, filter, query);
      forall k | 0 <= k < |v| - 1 && v[k].priority == v[k + 1].priority ::
        && (v[k].dueDate.Some? && v[k + 1].dueDate.Some? ==> v[k].dueDate.value <= v[k + 1].dueDate.value)
        && (v[k].dueDate.None? || v[k + 1].dueDate.None? ==> v[k].createdAt >= v[k + 1].createdAt)
  {
  }

  /** When no task has a due date, tasks of equal priority appear newest first. */
  lemma ViewOrderUndated(ts: seq<Task>, filter: string, query: string, i: int, j: int)
    requires forall t | t in ts :: t.dueDate.None?
    requires 0 <= i < j < |View(ts, filter, query)|
    requires View(ts, filter, query)[i].priority == View(ts, filter, query)[j].priority
    ensures View(ts, filter, query)[i].createdAt >= View(ts, filter, query)[j].createdAt
  {
    var r := View(ts, filter, query);
    SortedWhenUniformlyDated(r);
    assert r[i] in r && r[j] in r;
  }

  /** When every task has a due date, tasks of equal priority appear earliest due first. */
  lemma ViewOrderDated(ts: seq<Task>, filter: string, query: string, i: int, j: int)
    requires forall t | t in ts :: t.dueDate.Some?
    requires 0 <= i < j < |View(ts, filter, query)|
    requires View(ts, filter, query)[i].priority == View(ts, filter, query)[j].priority
    ensures View(ts, filter, query)[i].dueDate.Some? && View(ts, filter, query)[j].dueDate.Some?
    ensures View(ts, filter, query)[i].dueDate.value <= View(ts, filter, query)[j].dueDate.value
  {
    var r := View(ts, filter, query);
    SortedWhenUniformlyDated(r);
    assert r[i] in r && r[j] in r;
  }

  /**
   * With dated and undated tasks of equal priority mixed, a later due date can precede an
   * earlier one: `x` (due 5) stays before `y` (due 1) because the undated `u` sits between them.
   */
  lemma MixedDatesOutOfOrder()
    ensures var x := Task(1, "x", false, Some(5), Low, "General", 10, None);
            var u := Task(2, "u", false, None, Low, "General", 5, None);
            var y := Task(3, "y", false, Some(1), Low, "General", 0, None);
            Sort([x, u, y]) == [x, u, y]
  {
    var x := Task(1, "x", false, Some(5), Low, "General", 10, None);
    var u := Task(2, "u", false, None, Low, "General", 5, None);
    var y := Task(3, "y", false, Some(1), Low, "General", 0, None);
    assert Compare(u, y) <= 0 && Compare(x, u) <= 0;
    assert Sort([y]) == [y];
    assert [u, y][1..] == [y];
    assert Sort([u, y]) == Insert(u, [y]) == [u, y];
    assert [x, u, y][1..] == [u, y];
    assert Insert(x, [u, y]) == [x, u, y];
  }

  predicate IsActive(t: Task) {
    !t.completed
  }

  predicate IsCompleted(t: Task) {
    t.completed
  }

  /** The three counters of the stats panel. */
  datatype Counts = Counts(total: nat, active: nat, completed: nat)

  /** `updateStats`: total, open and finished task counts. */
  function CountTasks(ts: seq<Task>): (c: Counts)
    ensures c.total == |ts|
    ensures c.active + c.completed == c.total
    ensures c.completed == 0 <==> forall t | t in ts :: !t.completed
  {
    FilterPartition(ts, IsActive, IsCompleted);
    var done := Filter(ts, IsCompleted);
    FilterMembers(ts, IsCompleted);
    assert done != [] ==> done[0] in done;
    Counts(|ts|, |Filter(ts, IsActive)|, |done|)
  }

  /**
   * With an empty search, the `active` and `completed` views split the list between them,
   * and their sizes are the panel's counters.
   */
  lemma StatusViewsPartition(ts: seq<Task>)
    ensures multiset(View(ts, "active", "")) + multiset(View(ts, "completed", "")) == multiset(ts)
    ensures |View(ts, "active", "")| == CountTasks(ts).active
    ensures |View(ts, "completed", "")| == CountTasks(ts).completed
  {
    assert ToLower("") == "";
    FilterCongruent(ts, VisibleIn("active", ""), IsActive);
    FilterCongruent(ts, VisibleIn("completed", ""), IsCompleted);
    FilterPartition(ts, IsActive, IsCompleted);
    var a := View(ts, "active", "");
    var c := View(ts, "completed", "");
    assert |multiset(a)| == |a| && |multiset(c)| == |c|;
  }
}

=== FILE: results.dfy ===
/** Optional values and the outcome of operations the application can refuse. */
module Results {

  /** An optional value: `null`/`undefined` in the application's task records. */
  datatype Option<+T> = None | Some(value: T)

  /** The outcome of an operation the application can refuse with a notification. */
  datatype Result<+R, +E> = Success(value: R) | Failure(error: E)
}

=== FILE: store.dfy ===
/**
 * The mutations of the task list: add, toggle, edit, delete and drag-and-drop reorder.
 * Each takes the current list and returns the next one; saving and re-rendering are left to the caller.
 */
module Store {
  import opened Results
  import opened JsString
  import opened JsArray
  import opened Tasks

  /** The category given to a task whose category field is left blank. */
  const DefaultCategory: string := "General"

  /** The category field as stored: trimmed, or `General` when it is blank. */
  function CategoryOf(raw: string): (c: string)
    ensures c != [] && Trimmed(c)
    ensures c == (if Blank(raw) then DefaultCategory else Trim(raw))
  {
    var category := Trim(raw);
    assert Trimmed(DefaultCategory);
    if category == [] then DefaultCategory else category
  }

  /**
   * The task built from the add form: trimmed text, the stored category, not completed.
   * `id` and `now` stand for `Date.now()` and the clock.
   */
  function NewTask(draft: Draft, id: int, now: int): (t: Task)
    requires !Blank(draft.text)
    ensures WellFormed(t)
    ensures t.id == id && t.createdAt == now
    ensures t.text == Trim(draft.text)
    ensures t.category == CategoryOf(draft.category)
    ensures !t.completed && t.completedAt.None?
    ensures t.dueDate == draft.dueDate && t.priority == draft.priority
  {
    Task(id, Trim(draft.text), false, draft.dueDate, draft.priority, CategoryOf(draft.category), now, None)
  }

  /** Submitting the add form: rejected when the trimmed text is empty, otherwise the new task goes in front. */
  function AddTask(ts: seq<Task>, draft: Draft, id: int, now: int): (r: Result<seq<Task>, Rejection>)
    ensures r.Failure? <==> Blank(draft.text)
    ensures r.Failure? ==> r.error == EmptyTaskText && Message(r.error) == "Please enter a task!"
    ensures r.Success? ==> |r.value| == |ts| + 1 && r.value[0] == NewTask(draft, id, now) && r.value[1..] == ts
  {
    if Trim(draft.text) == [] then
      Failure(EmptyTaskText)
    else
      Success([NewTask(draft, id, now)] + ts)
  }

  /** Adding a task with a fresh id to a valid list gives a valid list. */
  lemma AddPreservesValidStore(ts: seq<Task>, draft: Draft, id: int, now: int)
    requires ValidStore(ts)
    requires id !in Ids(ts)
    requires !Blank(draft.text)
    ensures AddTask(ts, draft, id, now).Success?
    ensures ValidStore(AddTask(ts, draft, id, now).value)
  {
    var r := AddTask(ts, draft, id, now).value;
    assert r == [r[0]] + ts;
    PrependKeepsValidStore(r[0], ts);
  }

  /**
   * Clicking a task's checkbox: the first task with `id` flips `completed`, and
   * `completedAt` is stamped with `now` when it becomes completed and cleared otherwise.
   */
  function ToggleTask(ts: seq<Task>, id: int, now: int): (r: seq<Task>)
    ensures |r| == |ts|
    ensures id !in Ids(ts) ==> r == ts
    ensures id in Ids(ts) ==>
      var i := IndexOfId(ts, id);
      && (forall k :: 0 <= k < |ts| && k != i ==> r[k] == ts[k])
      && r[i].completed == !ts[i].completed
      && CompletionConsistent(r[i])
      && (r[i].completed ==> r[i].completedAt == Some(now))
      && r[i].(completed := ts[i].completed, completedAt := ts[i].completedAt) == ts[i]
  {
    var i := IndexOfId(ts, id);
    if i < 0 then ts
    else
      var t := ts[i];
      ts[i := t.(completed := !t.completed, completedAt := if !t.completed then Some(now) else None)]
  }

  /** Completing an active task and then reopening it restores the list. */
  lemma ToggleTwiceRestores(ts: seq<Task>, id: int, now1: int, now2: int)
    requires id in Ids(ts)
    requires !ts[IndexOfId(ts, id)].completed
    requires CompletionConsistent(ts[IndexOfId(ts, id)])
    ensures ToggleTask(ToggleTask(ts, id, now1), id, now2) == ts
  {
    var i := IndexOfId(ts, id);
    var r := ToggleTask(ts, id, now1);
    IndexOfIdFirst(r, id, i);
    var r2 := ToggleTask(r, id, now2);
    assert r2[i] == ts[i];
    assert forall k :: 0 <= k < |ts| ==> r2[k] == ts[k];
  }

  /** Toggling keeps the list valid: in particular `completedAt` stays present iff `completed`. */
  lemma TogglePreservesValidStore(ts: seq<Task>, id: int, now: int)
    requires ValidStore(ts)
    ensures ValidStore(ToggleTask(ts, id, now))
  {
    var r := ToggleTask(ts, id, now);
    if id in Ids(ts) {
      var i := IndexOfId(ts, id);
      assert ts[i] in ts;
      assert r == ts[i := r[i]];
      ReplaceKeepsValidStore(ts, i, r[i]);
    }
  }

  /** Committing an inline edit: the first task with `id` takes the trimmed text, unless it is empty. */
  function EditTask(ts: seq<Task>, id: int, newText: string): (r: seq<Task>)
    ensures |r| == |ts|
    ensures Blank(newText) || id !in Ids(ts) ==> r == ts
    ensures !Blank(newText) && id in Ids(ts) ==>
      var i := IndexOfId(ts, id);
      && (forall k :: 0 <= k < |ts| && k != i ==> r[k] == ts[k])
      && r[i].text == Trim(newText)
      && r[i].(text := ts[i].text) == ts[i]
  {
    var i := IndexOfId(ts, id);
    var text := Trim(newText);
    if i >= 0 && text != [] then ts[i := ts[i].(text := text)] else ts
  }

  /** Editing keeps the list valid. */
  lemma EditPreservesValidStore(ts: seq<Task>, id: int, newText: string)
    requires ValidStore(ts)
    ensures ValidStore(EditTask(ts, id, newText))
  {
    var r := EditTask(ts, id, newText);
    if !Blank(newText) && id in Ids(ts) {
      var i := IndexOfId(ts, id);
      assert ts[i] in ts;
      assert r == ts[i := r[i]];
      ReplaceKeepsValidStore(ts, i, r[i]);
    }
  }

  /** The filter test `t => t.id !== id`. */
  function IdIsNot(id: int): Task -> bool {
    (t: Task) => t.id != id
  }

  /** Deleting (after the caller's confirmation): every task with `id` is filtered out. */
  function DeleteTask(ts: seq<Task>, id: int): (r: seq<Task>)
    ensures forall t | t in r :: t in ts && t.id != id
    ensures forall t | t in ts && t.id != id :: t in r
    ensures id !in Ids(r)
    ensures id !in Ids(ts) ==> r == ts
  {
    var r := Filter(ts, IdIsNot(id));
    FilterMembers(ts, IdIsNot(id));
    if id !in Ids(ts) then
      FilterAll(ts, IdIsNot(id));
      r
    else
      r
  }

  /** Deleting from a concatenation deletes from each part, so survivors keep their order. */
  lemma DeleteConcat(a: seq<Task>, b: seq<Task>, id: int)
    ensures DeleteTask(a + b, id) == DeleteTask(a, id) + DeleteTask(b, id)
  {
    FilterConcat(a, b, IdIsNot(id));
  }

  /** With distinct ids, deleting the id at index `i` removes exactly that index. */
  lemma DeleteUnique(ts: seq<Task>, i: int)
    requires UniqueIds(ts)
    requires 0 <= i < |ts|
    ensures DeleteTask(ts, ts[i].id) == ts[..i] + ts[i + 1..]
  {
    var id := ts[i].id;
    forall k | 0 <= k < |ts| && k != i
      ensures IdIsNot(id)(ts[k])
    {
      if k < i {
        assert ts[k].id != ts[i].id;
      } else {
        assert ts[i].id != ts[k].id;
      }
    }
    FilterDropsOne(ts, IdIsNot(id), i);
  }

  /** Leaving out one index keeps the ids distinct. */
  lemma WithoutIndexKeepsUniqueIds(ts: seq<Task>, i: int)
    requires UniqueIds(ts)
    requires 0 <= i < |ts|
    ensures UniqueIds(ts[..i] + ts[i + 1..])
  {
    var r := ts[..i] + ts[i + 1..];
    forall p, q | 0 <= p < q < |r|
      ensures r[p].id != r[q].id
    {
      var p' := if p < i then p else p + 1;
      var q' := if q < i then q else q + 1;
      assert r[p] == ts[p'] && r[q] == ts[q'];
    }
  }

  /** Deleting keeps the list valid. */
  lemma DeletePreservesValidStore(ts: seq<Task>, id: int)
    requires ValidStore(ts)
    ensures ValidStore(DeleteTask(ts, id))
  {
    if id in Ids(ts) {
      var i := IndexOfId(ts, id);
      DeleteUnique(ts, i);
      WithoutIndexKeepsUniqueIds(ts, i);
    }
  }

  /** The drop handler acts only when a (truthy) dragged id is set and differs from the target. */
  predicate DropApplies(dragged: Option<int>, targetId: int) {
    dragged.Some? && dragged.value != 0 && dragged.value != targetId
  }

  /**
   * `splice(findIndex(...), 1)` on a non-empty list: the index the dragged task is taken from,
   * the last one when the id is missing.
   */
  function DragIndex(ts: seq<Task>, id: int): (i: nat)
    requires |ts| > 0
    ensures i < |ts|
    ensures id in Ids(ts) ==> i == IndexOfId(ts, id)
    ensures id !in Ids(ts) ==> i == |ts| - 1
  {
    SpliceStart(IndexOfId(ts, id), |ts|)
  }

  /**
   * `splice(targetIndex, 0, x)` once the dragged task is out: the target's index before the
   * removal, or the place before the last one when the target is missing.
   */
  function DropIndex(ts: seq<Task>, id: int): (k: nat)
    requires |ts| > 0
    ensures k < |ts|
    ensures id in Ids(ts) ==> k == IndexOfId(ts, id)
    ensures id !in Ids(ts) ==> k == if |ts| < 2 then 0 else |ts| - 2
  {
    SpliceStart(IndexOfId(ts, id), |ts| - 1)
  }

  /**
   * Dropping the dragged task on the task `targetId`: it is spliced out and spliced back in
   * at the index the target had before the removal, so it lands after the target when dragged
   * downward and before it when dragged upward. A missing id makes `findIndex` give -1, which
   * `splice` reads as the last index: a missing dragged id takes out the last task, and a
   * missing target puts the task just before the last place.
   */
  function Reorder(ts: seq<Task>, dragged: Option<int>, targetId: int): (r: seq<Task>)
    requires DropApplies(dragged, targetId) ==> |ts| > 0
    ensures |r| == |ts| && multiset(r) == multiset(ts) && Ids(r) == Ids(ts)
    ensures !DropApplies(dragged, targetId) ==> r == ts
    ensures DropApplies(dragged, targetId) ==>
      r == Move(ts, DragIndex(ts, dragged.value), DropIndex(ts, targetId))
    ensures DropApplies(dragged, targetId) && dragged.value in Ids(ts) && targetId in Ids(ts) ==>
      r == Move(ts, IndexOfId(ts, dragged.value), IndexOfId(ts, targetId))
  {
    if DropApplies(dragged, targetId) then
      var r := Move(ts, DragIndex(ts, dragged.value), DropIndex(ts, targetId));
      PermutationKeepsIds(r, ts);
      r
    else
      ts
  }

  /**
   * Dropping onto a present target puts the dragged task at the target's old index; the tasks
   * between the two indices shift one place toward the dragged task's old index, the rest stay.
   */
  lemma ReorderShape(ts: seq<Task>, dragged: int, targetId: int)
    requires DropApplies(Some(dragged), targetId)
    requires dragged in Ids(ts) && targetId in Ids(ts)
    ensures MovedTo(ts, Reorder(ts, Some(dragged), targetId), IndexOfId(ts, dragged), IndexOfId(ts, targetId))
  {
    var i := IndexOfId(ts, dragged);
    var j := IndexOfId(ts, targetId);
    MoveShape(ts, i, j, Reorder(ts, Some(dragged), targetId));
  }

  /** After swapping neighbours `p` and `q`, the task moved from `p` is the first with its id. */
  lemma SwapFirstMoved(ts: seq<Task>, p: nat, q: nat)
    requires p < |ts| && q < |ts| && (q == p + 1 || p == q + 1)
    requires ts[p].id != ts[q].id
    requires forall m :: 0 <= m < p ==> ts[m].id != ts[p].id
    ensures IndexOfId(Move(ts, p, q), ts[p].id) == q
  {
    var r := Move(ts, p, q);
    forall m | 0 <= m < q
      ensures r[m].id != ts[p].id
    {
      if m == p {
        assert r[m] == ts[q];
      } else {
        assert r[m] == ts[m];
      }
    }
    IndexOfIdFirst(r, ts[p].id, q);
  }

  /** After swapping neighbours `p` and `q`, the task moved from `q` is the first with its id. */
  lemma SwapFirstDisplaced(ts: seq<Task>, p: nat, q: nat)
    requires p < |ts| && q < |ts| && (q == p + 1 || p == q + 1)
    requires ts[p].id != ts[q].id
    requires forall m :: 0 <= m < q ==> ts[m].id != ts[q].id
    ensures IndexOfId(Move(ts, p, q), ts[q].id) == p
  {
    var r := Move(ts, p, q);
    forall m | 0 <= m < p
      ensures r[m].id != ts[q].id
    {
      if m == q {
        assert r[m] == ts[p];
      } else {
        assert r[m] == ts[m];
      }
    }
    IndexOfIdFirst(r, ts[q].id, p);
  }

  /** After swapping two neighbours, each is still the first task with its id. */
  lemma SwapKeepsFirstIndices(ts: seq<Task>, a: int, b: int)
    requires a in Ids(ts) && b in Ids(ts)
    requires IndexOfId(ts, b) == IndexOfId(ts, a) + 1 || IndexOfId(ts, a) == IndexOfId(ts, b) + 1
    ensures IndexOfId(Move(ts, IndexOfId(ts, a), IndexOfId(ts, b)), b) == IndexOfId(ts, a)
    ensures IndexOfId(Move(ts, IndexOfId(ts, a), IndexOfId(ts, b)), a) == IndexOfId(ts, b)
  {
    var p := IndexOfId(ts, a);
    var q := IndexOfId(ts, b);
    SwapFirstMoved(ts, p, q);
    SwapFirstDisplaced(ts, p, q);
  }

  /** Moving a task one place and dropping its neighbour back on it restores the list. */
  lemma ReorderAdjacentRestores(ts: seq<Task>, a: int, b: int)
    requires a != 0 && b != 0
    requires a in Ids(ts) && b in Ids(ts)
    requires IndexOfId(ts, b) == IndexOfId(ts, a) + 1 || IndexOfId(ts, a) == IndexOfId(ts, b) + 1
    ensures Reorder(Reorder(ts, Some(a), b), Some(b), a) == ts
  {
    var p := IndexOfId(ts, a);
    var q := IndexOfId(ts, b);
    var r := Reorder(ts, Some(a), b);
    assert r == Move(ts, p, q);
    SwapKeepsFirstIndices(ts, a, b);
    assert Reorder(r, Some(b), a) == Move(r, p, q);
    MoveAdjacentSymmetric(r, p, q);
    MoveBack(ts, p, q);
  }

  /**
   * A drop with a missing id is still a move: with the target missing the dragged task goes to
   * the place before the last; with the dragged id missing the last task goes to the target's index.
   */
  lemma ReorderMissingId(ts: seq<Task>, dragged: int, targetId: int)
    requires DropApplies(Some(dragged), targetId) && |ts| > 0
    ensures dragged in Ids(ts) && targetId !in Ids(ts) ==>
      Reorder(ts, Some(dragged), targetId) == Move(ts, IndexOfId(ts, dragged), if |ts| < 2 then 0 else |ts| - 2)
    ensures dragged !in Ids(ts) && targetId in Ids(ts) ==>
      Reorder(ts, Some(dragged), targetId) == Move(ts, |ts| - 1, IndexOfId(ts, targetId))
  {
  }

  /** Moving a task keeps the ids distinct. */
  lemma MoveKeepsUniqueIds(ts: seq<Task>, i: nat, k: nat)
    requires UniqueIds(ts)
    requires i < |ts| && k < |ts|
    ensures UniqueIds(Move(ts, i, k))
  {
    var r := Move(ts, i, k);
    forall p, q | 0 <= p < q < |r|
      ensures r[p].id != r[q].id
    {
      assert r[p] == ts[MoveSource(i, k, p)] && r[q] == ts[MoveSource(i, k, q)];
    }
  }

  /** Reordering keeps the list valid. */
  lemma ReorderPreservesValidStore(ts: seq<Task>, dragged: Option<int>, targetId: int)
    requires DropApplies(dragged, targetId) ==> |ts| > 0
    requires ValidStore(ts)
    ensures ValidStore(Reorder(ts, dragged, targetId))
  {
    var r := Reorder(ts, dragged, targetId);
    if DropApplies(dragged, targetId) {
      var i := DragIndex(ts, dragged.value);
      var k := DropIndex(ts, targetId);
      assert r == Move(ts, i, k);
      MoveKeepsUniqueIds(ts, i, k);
      assert forall t :: t in r <==> t in multiset(r);
    }
  }
}

=== FILE: tasks.dfy ===
/** The task record, its identifiers, and the well-formedness the store maintains. */
module Tasks {
  import opened Results
  import opened JsString

  /** The three options of the priority selector. */
  datatype Priority = Low | Medium | High

  /** The value the priority selector stores in a task. */
  function PriorityName(p: Priority): string {
    match p
    case Low => "low"
    case Medium => "medium"
    case High => "high"
  }

  /**
   * One to-do item. Timestamps are milliseconds since the epoch; `dueDate` and
   * `completedAt` are absent when the record holds `null`/`undefined`.
   */
  datatype Task = Task(
    id: int,
    text: string,
    completed: bool,
    dueDate: Option<int>,
    priority: Priority,
    category: string,
    createdAt: int,
    completedAt: Option<int>)

  /** The values read from the add form when a task is submitted. */
  datatype Draft = Draft(text: string, dueDate: Option<int>, priority: Priority, category: string)

  /** Why an operation was refused; the user sees `Message`. */
  datatype Rejection = EmptyTaskText | NothingToExport

  function Message(e: Rejection): string {
    match e
    case EmptyTaskText => "Please enter a task!"
    case NothingToExport => "No tasks to export!"
  }

  function Ids(ts: seq<Task>): set<int> {
    set t | t in ts :: t.id
  }

  /** `ts.findIndex(t => t.id === id)`: the first index holding `id`, or -1. */
  function IndexOfId(ts: seq<Task>, id: int): (r: int)
    ensures -1 <= r < |ts|
    ensures r < 0 <==> id !in Ids(ts)
    ensures 0 <= r ==> ts[r].id == id && forall k :: 0 <= k < r ==> ts[k].id != id
  {
    if |ts| == 0 then -1
    else if ts[0].id == id then 0
    else
      var j := IndexOfId(ts[1..], id);
      assert Ids(ts) == {ts[0].id} + Ids(ts[1..]) by {
        assert ts == [ts[0]] + ts[1..];
      }
      if j < 0 then -1 else j + 1
  }

  /** The first index holding `id` is the one `IndexOfId` finds. */
  lemma IndexOfIdFirst(ts: seq<Task>, id: int, k: int)
    requires 0 <= k < |ts| && ts[k].id == id
    requires forall m :: 0 <= m < k ==> ts[m].id != id
    ensures IndexOfId(ts, id) == k
  {
    assert ts[k] in ts;
  }

  /** Rearranging the tasks keeps the same ids. */
  lemma PermutationKeepsIds(a: seq<Task>, b: seq<Task>)
    requires multiset(a) == multiset(b)
    ensures Ids(a) == Ids(b)
  {
    assert forall t :: t in a <==> t in multiset(a);
    assert forall t :: t in b <==> t in multiset(b);
  }

  /** `completedAt` is present exactly when the task is completed. */
  predicate CompletionConsistent(t: Task) {
    t.completed <==> t.completedAt.Some?
  }

  /** What adding and editing guarantee of a task, and toggling keeps. */
  predicate WellFormed(t: Task) {
    && t.text != [] && Trimmed(t.text)
    && t.category != [] && Trimmed(t.category)
    && CompletionConsistent(t)
  }

  predicate UniqueIds(ts: seq<Task>) {
    forall i, j :: 0 <= i < j < |ts| ==> ts[i].id != ts[j].id
  }

  /** The invariant of the task list: distinct ids and well-formed tasks. */
  predicate ValidStore(ts: seq<Task>) {
    UniqueIds(ts) && forall t | t in ts :: WellFormed(t)
  }

  /** Putting a well-formed task with a fresh id in front of a valid list keeps it valid. */
  lemma PrependKeepsValidStore(t: Task, ts: seq<Task>)
    requires ValidStore(ts) && WellFormed(t) && t.id !in Ids(ts)
    ensures ValidStore([t] + ts)
  {
    var r := [t] + ts;
    forall i, j | 0 <= i < j < |r|
      ensures r[i].id != r[j].id
    {
      assert r[j] == ts[j - 1];
      if i == 0 {
        assert ts[j - 1] in ts;
      } else {
        assert r[i] == ts[i - 1];
      }
    }
  }

  /** Replacing a task by a well-formed one with the same id keeps a valid list valid. */
  lemma ReplaceKeepsValidStore(ts: seq<Task>, i: int, t: Task)
    requires ValidStore(ts)
    requires 0 <= i < |ts| && t.id == ts[i].id && WellFormed(t)
    ensures ValidStore(ts[i := t])
  {
    var r := ts[i := t];
    forall u | u in r
      ensures WellFormed(u)
    {
      var k :| 0 <= k < |r| && r[k] == u;
      if k != i {
        assert ts[k] in ts;
      }
    }
  }
}
